=== FILE: README.md ===
# SemesterFlow study tracker: a Dafny model of its core

SemesterFlow is a study-planning dashboard. This project models the parts of it that compute
and change data:

- **Procrastination widget.**
  - The procrastination score: ten times the mean "delay ratio" of the assignments that have been started.
  - The score's LOW / MED / HIGH tier.
  - The "danger zone": at most three untouched assignments that are running out of time.
  - The days-left label beside each danger-zone entry, and the rule that hides the widget when there is nothing to warn about.
- **App store.** The handlers that replace the courses, the assignments, the study sessions and the semester's hour total:
  - add, update and delete a course (a confirmed delete also removes the course's assignments);
  - add and delete an assignment, which keeps each course's assignment count in step;
  - toggle an assignment's status, which keeps each course's completed count in step;
  - save a study session;
  - the dashboard's list of the next three deadlines.
- **Study timer.**
  - The HH:MM:SS display.
  - The state machine behind the play, pause, save and discard buttons, plus the course selection that is locked while a session is running.

Modules:

- `Types`: assignments, courses and study sessions. Dates are integer milliseconds.
- `Text`: the JavaScript string operations the app relies on: `trim`, `toString`, `padStart` and ASCII `toUpperCase`.
- `Lists`: filter, map, an insertion sort by a real key, and take-first-n, each with a specification.
- `Procrastination`: the widget.
- `AppState`: a `Store` class with one method per handler. Each method is specified by pure functions of the old state.
- `StudyTimer`: the formatter and a `Timer` class.

Clock readings, confirmation dialogs and the "too short" alert do not appear as such:

- Clock readings are parameters (`now`, and the id and date strings of a new session).
- A confirmation dialog is a boolean parameter.
- The "too short" alert of a save is a `None` result.

The score is a `real`. The elapsed-percent test divides by a lifetime that can be zero, and JavaScript answers that with ±Infinity or NaN. The `Percent` datatype reproduces this, and `UrgentIffExact` restates the test over integers. The code compares the elapsed percent against 60, although the comment above it speaks of 50 %. The model follows the code. It also follows the code where a comment says the default score is "0.5": the code's default is 5.

A status toggle sets the start time only when an assignment moves to IN_PROGRESS. So a NOT_STARTED assignment that is completed directly has no start time, and it does not count towards the score while it stays completed. Reopening it sets its start time to the moment of reopening, and from then on it counts. The model keeps this behaviour (`AppState.Toggled`).

When the timer saves, it passes four arguments, so the session gets the store's default topic "General" and difficulty 3. `AppState.Store.SaveTimerSession` hands the timer's `StudyTimer.SaveRequest` to `SaveSession` with `AppState.DefaultTopic` and `AppState.DefaultDifficulty`.

## Model

| member | source | states |
|---|---|---|
| Procrastination.StartedTasks | components/ProcrastinationWidget.tsx:23 | exactly the tasks that have left NOT_STARTED and carry a start time are kept, each as often as in the input and in input order |
| Procrastination.Lifetime | components/ProcrastinationWidget.tsx:34 | the lifetime is at least 1 ms and at least due minus created, and is one of the two |
| Procrastination.DelayRatio | components/ProcrastinationWidget.tsx:29-38 | the ratio lies in [0, 1], whatever the order of created, start and due |
| Procrastination.DelayRatioCases | components/ProcrastinationWidget.tsx:34-38 | a start at or before creation gives 0; a start at or after a later due date gives 1, and so does any start after creation when the due date is not after creation; otherwise the ratio is the exact share of the lifetime |
| Procrastination.SumRatiosBounds | components/ProcrastinationWidget.tsx:28-42 | the accumulated total of n ratios lies in [0, n] |
| Procrastination.Score | components/ProcrastinationWidget.tsx:25-45 | the score is 5 when no task counts and otherwise the mean ratio times 10, so it always lies in [0, 10] |
| Procrastination.ComputeScore | components/ProcrastinationWidget.tsx:23-45 | the filter-then-accumulate loop computes exactly `Score` |
| Procrastination.ScoreIgnoresUnstarted | components/ProcrastinationWidget.tsx:23 | inserting a task that has not started, anywhere in the list, leaves the score unchanged |
| Procrastination.TierOf | components/ProcrastinationWidget.tsx:48 | LOW iff score < 3, MED iff 3 ≤ score < 7, HIGH iff score ≥ 7 |
| Procrastination.ElapsedPercent | components/ProcrastinationWidget.tsx:60 | a finite percent (times the lifetime it gives 100 × the elapsed time) exactly when the lifetime is non-zero; with a zero lifetime, +Infinity when now is past creation, NaN when now is creation, and −Infinity otherwise |
| Procrastination.Exceeds | components/ProcrastinationWidget.tsx:64 | JavaScript's `>` against a finite bound: a finite percent compares by value, +Infinity always exceeds, −Infinity and NaN never do |
| Procrastination.Candidates | components/ProcrastinationWidget.tsx:54-64 | no more entries than tasks, each for a NOT_STARTED task and urgent |
| Procrastination.CandidatesExactly | components/ProcrastinationWidget.tsx:54-64 | an entry survives the filter/map/filter stages iff its task is in the input and NOT_STARTED, it carries that task's own days left and elapsed percent, and either signal alone makes it urgent |
| Procrastination.DangerZone | components/ProcrastinationWidget.tsx:54-66 | the first three candidates by days left, or all of them when fewer: exactly min(3, number of candidates) entries, ascending by days left, each an urgent NOT_STARTED task of the input, and together a sub-multiset of the candidates |
| Procrastination.DangerZoneKeepsMostUrgent | components/ProcrastinationWidget.tsx:65-66 | an urgent untouched task that is left out means the zone is full and its last entry has no more days left than that task |
| Procrastination.DangerZoneKeepsMostUrgentCopies | components/ProcrastinationWidget.tsx:65-66 | counted copy by copy: a candidate entry kept fewer times than it occurs among the candidates means the zone is full and its last entry has no more days left, so a task listed twice keeps both copies ahead of any later-due one |
| Procrastination.QuotientExceeds | components/ProcrastinationWidget.tsx:60-64 | the `> 60` percent test on a quotient equals the cross-multiplied test, flipped for a negative divisor |
| Procrastination.UrgentIffExact | components/ProcrastinationWidget.tsx:57-64 | an entry is urgent iff due minus now is under 5 × 86 400 000 ms or the elapsed test holds, with a zero lifetime exceeding 60 exactly when now is past creation |
| Procrastination.CandidateIff | components/ProcrastinationWidget.tsx:54-64 | a task's entry is a candidate iff the task is in the input, NOT_STARTED and urgent in integer terms |
| Procrastination.Ceil | components/ProcrastinationWidget.tsx:146 | `Math.ceil`: the least integer not below x |
| Procrastination.DaysLeftLabel | components/ProcrastinationWidget.tsx:146 | "DUE TODAY" when no days are left; otherwise the canonical numeral (no leading zero) of the n with n − 1 < days left ≤ n, followed by " DAYS LEFT" |
| Procrastination.ShowAlert | components/ProcrastinationWidget.tsx:112-114 | the widget is hidden iff the danger zone is empty and the score is below the MED threshold |
| Text.Trim | components/StudyTimer.tsx:64 | the trimmed string is a slice of the input with only white space cut from either end; it is empty iff the input is all white space, and otherwise neither starts nor ends with white space |
| Text.UpperCase | components/StudyTimer.tsx:64 | same length; each lower-case ASCII letter becomes the upper-case letter 32 code points below it, and every other character is kept |
| Lists.Filter | App.tsx:86 | `filter`: exactly the elements satisfying the test are kept, and they form a subsequence of the input (order kept) |
| Lists.FilterMultiset | App.tsx:86 | a filter keeps every element that passes exactly as often as it occurs, and no other |
| Lists.SortBy | components/ProcrastinationWidget.tsx:65 | the comparator sort returns a permutation of its input, ascending by the key |
| Lists.Take | components/ProcrastinationWidget.tsx:66 | `slice(0, n)`: the first min(n, length) elements, a prefix and a sub-multiset of the input |
| Text.NatToString | components/StudyTimer.tsx:52 | `toString` of a whole number: all digits, one digit below 10, two below 100, at least three from 100, and no leading zero from 10 up |
| Text.PadStart | components/StudyTimer.tsx:52 | the result has the width, or the string's own length if longer; the string ends it and the fill character comes before |
| Text.ParsePadded | components/StudyTimer.tsx:52 | a zero-padded numeral reads back as its number |
| AppState.NextStatus | App.tsx:142-144 | COMPLETED becomes IN_PROGRESS, every other status becomes COMPLETED, never NOT_STARTED |
| AppState.Toggled | App.tsx:142-163 | only the status and the start time change; an existing start time is kept, a missing one is set to now only on the move to IN_PROGRESS |
| AppState.ToggleTwice | App.tsx:142-163 | toggling a started assignment twice restores it exactly |
| AppState.ToggleAll | App.tsx:140-166 | assignments with the id are toggled and leave NOT_STARTED, all others are kept as they are |
| AppState.CompletedDelta | App.tsx:153-160 | +1 exactly when the toggle completes the assignment, −1 exactly when it reopens it |
| AppState.AdjustCompleted | App.tsx:154-159 | only the matching course's completed count moves, by the given amount |
| AppState.CountersAfterToggle | App.tsx:153-160 | applying the queued counter updates keeps the course list's length and every course's id in place |
| AppState.CountersAfterToggleAdds | App.tsx:139-167 | after a toggle, each course's completed count has moved by its net delta and nothing else about any course changes |
| AppState.NetDeltaUnique | App.tsx:153-160 | with a unique id, the net delta is that assignment's ±1 for its own course and 0 for every other course |
| AppState.NetDeltaAbsent | App.tsx:140-166 | toggling an id no assignment carries moves no counter |
| AppState.ToggleUniqueEffect | App.tsx:139-167 | with a unique assignment id, a toggle changes exactly that assignment and moves the completed count of its course (every course carrying that id; none if absent) by one, with no floor |
| AppState.WithCreatedAt | App.tsx:72-75 | the creation time is kept when given and otherwise set to now; no other field changes |
| AppState.IncrementTotal | App.tsx:78-80 | only the matching course's assignment total grows, by one |
| AppState.FlooredDecrement | App.tsx:89 | `Math.max(0, n - 1)`: never negative, one less for n ≥ 1 |
| AppState.DecrementTotalFloored | App.tsx:88-90 | only the matching course's assignment total drops, by one and never below 0 |
| AppState.FindFirst | App.tsx:84 | the index of the first assignment with the id, or none when no assignment has it |
| AppState.WithoutAssignment | App.tsx:86 | exactly the assignments without the id remain, each as often as before and in their original order |
| AppState.WithoutCourse | App.tsx:64 | exactly the courses without the id remain, each as often as before and in their original order |
| AppState.WithoutCourseAssignments | App.tsx:66 | exactly the assignments of other courses remain, each as often as before and in their original order |
| AppState.ReplaceCourse | App.tsx:53 | every course with the updated course's id is replaced by it; the others stay |
| AppState.SetWeakConcepts | App.tsx:57-59 | only the matching course's weak concepts change |
| AppState.KnowledgeAfterSession | App.tsx:112-118 | the old knowledge text is kept as a prefix, and the session log entry is appended iff the user asked for it and the notes are not blank |
| AppState.RoundTenth | App.tsx:122-132 | the result is a whole number of tenths within 0.05 of the input, and a tie exactly 0.05 away goes away from zero (0.25 gives 0.3, −0.25 gives −0.3) |
| AppState.RoundTenthSymmetric | App.tsx:122-132 | opposite inputs round to opposite tenths: `toFixed` rounds the magnitude |
| AppState.CreditSession | App.tsx:109-127 | only the matching course changes: its hours gain the session's hours, rounded to a tenth, and its knowledge is updated as `KnowledgeAfterSession` says |
| AppState.UpcomingAssignments | App.tsx:197-200 | exactly min(3, number of open assignments) assignments, none COMPLETED, ascending by due date, and together a sub-multiset of the open assignments |
| AppState.UpcomingKeepsEarliest | App.tsx:197-200 | an open assignment left off the list means the list is full and its last entry is due no later |
| AppState.UpcomingKeepsEarliestCopies | App.tsx:197-200 | counted copy by copy: an open assignment listed fewer times than it occurs means the list is full and its last entry is due no later |
| AppState.Store.constructor | App.tsx:41-44 | the store starts with the given courses, assignments, sessions and hour total |
| AppState.Store.AddCourse | App.tsx:48-50 | the new course is appended; nothing else changes |
| AppState.Store.UpdateCourse | App.tsx:52-54 | courses with the id are replaced; nothing else changes |
| AppState.Store.UpdateCourseWeakness | App.tsx:56-60 | the course's weak concepts are set; nothing else changes |
| AppState.Store.DeleteCourse | App.tsx:62-68 | unconfirmed: nothing changes; confirmed: the course and every assignment of it go |
| AppState.Store.AddAssignment | App.tsx:70-81 | exactly one assignment is appended, with its creation time defaulted, and its course's total grows by one |
| AppState.Store.DeleteAssignment | App.tsx:83-92 | an unknown id changes nothing; otherwise the assignments with the id go and the first one's course loses one from its total, floored at 0 |
| AppState.Store.ToggleAssignmentStatus | App.tsx:139-167 | the assignments become `ToggleAll` and the courses `CountersAfterToggle` of the old state, as one step |
| AppState.Store.SaveSession | App.tsx:94-133 | the new session is put first in the history, the course is credited, the semester total gains the hours rounded to a tenth, and the assignments do not change |
| AppState.Store.SaveTimerSession | App.tsx:94 | a timer's save request is recorded as by `SaveSession`, under the default topic "General" and difficulty 3 |
| StudyTimer.ClockFields | components/StudyTimer.tsx:49-51 | hours are the total divided by 3600, minutes and seconds are below 60, and hours × 3600 + minutes × 60 + seconds is the total |
| StudyTimer.Field | components/StudyTimer.tsx:52 | a field has at least two digits, exactly two iff its value is below 100, no leading zero from 10 up, and reads back as its value |
| StudyTimer.FormatTime | components/StudyTimer.tsx:48-53 | the display is HH:MM:SS with separators in place; it is exactly 8 characters iff under 100 hours, since hours are not capped, and a longer display does not start with a zero |
| StudyTimer.FormatTimeRoundTrip | components/StudyTimer.tsx:48-53 | reading the display back gives exactly the number of seconds formatted |
| StudyTimer.FinalNotes | components/StudyTimer.tsx:64 | the raw notes when the topic is blank, and something strictly longer otherwise |
| StudyTimer.FinalNotesShape | components/StudyTimer.tsx:64 | the notes end the final notes; these are the raw notes iff the topic is blank, and otherwise the notes are prefixed by `[FOCUS: TOPIC] - ` with the topic upper-cased |
| StudyTimer.Submission | components/StudyTimer.tsx:64-65 | a save hands on the selected course, the seconds and the knowledge flag unchanged, and the final notes in place of the raw ones |
| StudyTimer.InitialCourse | components/StudyTimer.tsx:21 | the given course id when non-empty, else the first course's id, else the empty string |
| StudyTimer.Timer.constructor | components/StudyTimer.tsx:19-26 | the timer starts idle at zero, on the initial course and topic, with empty notes and the knowledge box unticked |
| StudyTimer.Timer.ReceiveProps | components/StudyTimer.tsx:29-32 | a non-empty course id or topic from the props replaces the current one; nothing else changes |
| StudyTimer.Timer.Start | components/StudyTimer.tsx:141-149 | the play button, offered only while idle at zero, starts the timer; nothing else changes |
| StudyTimer.Timer.Tick | components/StudyTimer.tsx:37-40 | while running, one tick adds exactly one second and changes nothing else |
| StudyTimer.Timer.Stop | components/StudyTimer.tsx:141-155 | the pause button, offered only while running, stops the timer and keeps its seconds |
| StudyTimer.Timer.SelectCourse | components/StudyTimer.tsx:104 | the course changes only when the timer is idle at zero |
| StudyTimer.Timer.SetTopic | components/StudyTimer.tsx:162-184 | in the debrief form, shown once paused with time on the clock, only the topic changes |
| StudyTimer.Timer.SetNotes | components/StudyTimer.tsx:162-195 | in the debrief form, only the notes change |
| StudyTimer.Timer.ToggleAddToKnowledge | components/StudyTimer.tsx:162-203 | in the debrief form, only the knowledge box flips |
| StudyTimer.Timer.Save | components/StudyTimer.tsx:59-73 | offered in the debrief form only; under 60 seconds: no request and no change. Otherwise: a request with the course, the seconds, the final notes and the knowledge flag, then the timer is reset to idle at zero with an empty report, on the same course |
| StudyTimer.Timer.Discard | components/StudyTimer.tsx:75-82 | offered in the debrief form only; a confirmed discard resets seconds, notes, topic and running state but keeps the knowledge box; an unconfirmed one changes nothing |

## Left out

- The AI advice (a generative-model call) and its prompt data, including the unclamped delay percent sent with it.
- Date parsing. Dates are integer milliseconds, and an unparsable date (NaN) is not modelled. Each reading of the clock is a parameter.
- Binary floating point: the score, the ratios and the hours are exact reals.
- AppState.RoundTenth: rounds exact decimals, ties away from zero. `toFixed(1)` works on the nearest binary double, which can round a value such as 0.35 down, and the model does not capture that.
- Timer and tab scheduling. The one-second interval is the `Tick` method, which needs a running timer; clearing and re-arming the interval is not modelled.
- Text.Trim and Text.UpperCase: cover ASCII only. Unicode white space that `trim` also strips, and non-ASCII letters that `toUpperCase` maps, are not modelled.
- Lists.SortBy: the insertion sort is stable, like JavaScript's sort, but its contract states only that the result is sorted and a permutation. The contracts built on it therefore do not say which of several entries with equal keys the top-three cut keeps.
- Rendering, styling, colours and the other display-only course fields; the chart data and seed data.
- Persistence (Firestore), authentication and file or PDF import.
- The user statistics other than the semester hour total. The reset of the timer's initial data after a save is also not modelled, because it only feeds the timer's props.
- A `createdAt` of the empty string cannot be represented by an integer timestamp. The `createdAt || now` default is a boolean parameter saying whether a creation time was given.

=== FILE: app_state.dfy ===
/**
  The app's data store: courses, assignments, study sessions and the semester's
  hour total, with one method per handler that replaces them. Every new value is
  a pure function of the old ones; the confirmation dialog of a course delete is
  a boolean parameter, and the clock readings are parameters.
 */
module AppState {
  import opened Types
  import opened Lists
  import Text
  import StudyTimer

  // ---------------------------------------------------------------------------
  // Status toggle

  /** COMPLETED goes back to IN_PROGRESS; every other status, NOT_STARTED included, becomes COMPLETED. */
  function NextStatus(s: AssignmentStatus): (r: AssignmentStatus)
    ensures r != NotStarted
    ensures r == InProgress <==> s == Completed
    ensures r == Completed <==> s != Completed
  {
    if s == Completed then InProgress else Completed
  }

  /**
    One assignment after a toggle. Only the status and the start time can change; an
    existing start time is kept, a missing one is filled with `now` only when the
    assignment moves to IN_PROGRESS, so a NOT_STARTED task completed directly has none.
   */
  function Toggled(a: Assignment, now: Timestamp): (r: Assignment)
    ensures r.status == NextStatus(a.status)
    ensures r == a.(status := r.status, startedAt := r.startedAt)
    ensures a.startedAt.Some? ==> r.startedAt == a.startedAt
    ensures a.startedAt.None? && a.status != Completed ==> r.startedAt.None?
    ensures a.startedAt.None? && a.status == Completed ==> r.startedAt == Some(now)
    ensures r.status == InProgress ==> r.startedAt.Some?
  {
    var status := NextStatus(a.status);
    var startedAt := if status == InProgress && a.startedAt.None? then Some(now) else a.startedAt;
    a.(status := status, startedAt := startedAt)
  }

  /** Toggling a started assignment twice gives it back unchanged. */
  lemma ToggleTwice(a: Assignment, t1: Timestamp, t2: Timestamp)
    requires a.status != NotStarted && a.startedAt.Some?
    ensures Toggled(Toggled(a, t1), t2) == a
  {
  }

  /** The assignment list after a toggle: every assignment with the id is toggled, the rest are kept. */
  function ToggleAll(assignments: seq<Assignment>, id: string, now: Timestamp): (r: seq<Assignment>)
    ensures |r| == |assignments|
    ensures forall k :: 0 <= k < |r| && assignments[k].id != id ==> r[k] == assignments[k]
    ensures forall k :: 0 <= k < |r| && assignments[k].id == id ==>
              r[k] == Toggled(assignments[k], now) && r[k].status != NotStarted
  {
    MapSeq((a: Assignment) => if a.id == id then Toggled(a, now) else a, assignments)
  }

  /** +1 when the toggle completes the assignment, -1 when it reopens it (no floor). */
  function CompletedDelta(a: Assignment): (d: int)
    ensures d == 1 <==> NextStatus(a.status) == Completed
    ensures d == -1 <==> NextStatus(a.status) == InProgress
  {
    if a.status == Completed then -1 else 1
  }

  /** Adds `delta` to `completedAssignments` of the courses with the given id. */
  function AdjustCompleted(courses: seq<Course>, courseId: string, delta: int): (r: seq<Course>)
    ensures |r| == |courses|
    ensures forall k :: 0 <= k < |r| ==>
              r[k] == courses[k].(completedAssignments := courses[k].completedAssignments +
                                    (if courses[k].id == courseId then delta else 0))
  {
    MapSeq((c: Course) =>
      if c.id == courseId then c.(completedAssignments := c.completedAssignments + delta) else c,
      courses)
  }

  /**
    The course list after a toggle: each assignment with the id queues one counter
    update for its course, and the updates are applied in list order.
   */
  function CountersAfterToggle(courses: seq<Course>, assignments: seq<Assignment>, id: string): (r: seq<Course>)
    ensures |r| == |courses|
    ensures forall k :: 0 <= k < |r| ==> r[k].id == courses[k].id
    decreases |assignments|
  {
    if assignments == [] then courses
    else
      var a := assignments[0];
      var next := if a.id == id then AdjustCompleted(courses, a.courseId, CompletedDelta(a)) else courses;
      CountersAfterToggle(next, assignments[1..], id)
  }

  /** The total change a toggle of `id` makes to the completed count of course `courseId`. */
  function NetDelta(assignments: seq<Assignment>, id: string, courseId: string): int {
    if assignments == [] then 0
    else
      var a := assignments[0];
      (if a.id == id && a.courseId == courseId then CompletedDelta(a) else 0) +
      NetDelta(assignments[1..], id, courseId)
  }

  /** Each course's completed count moves by its net delta; nothing else about any course changes. */
  lemma {:induction false} CountersAfterToggleAdds(courses: seq<Course>, assignments: seq<Assignment>, id: string)
    ensures |CountersAfterToggle(courses, assignments, id)| == |courses|
    ensures forall k :: 0 <= k < |courses| ==>
              CountersAfterToggle(courses, assignments, id)[k] ==
              courses[k].(completedAssignments := courses[k].completedAssignments +
                                                  NetDelta(assignments, id, courses[k].id))
    decreases |assignments|
  {
    if assignments != [] {
      var a := assignments[0];
      var next := if a.id == id then AdjustCompleted(courses, a.courseId, CompletedDelta(a)) else courses;
      CountersAfterToggleAdds(next, assignments[1..], id);
    }
  }

  /** With a unique id, the net delta is the toggled assignment's own delta for its course and 0 elsewhere. */
  lemma {:induction false} NetDeltaUnique(assignments: seq<Assignment>, id: string, j: nat, courseId: string)
    requires j < |assignments| && assignments[j].id == id
    requires forall k :: 0 <= k < |assignments| && k != j ==> assignments[k].id != id
    ensures NetDelta(assignments, id, courseId) ==
              if courseId == assignments[j].courseId then CompletedDelta(assignments[j]) else 0
  {
    if j == 0 {
      NetDeltaAbsent(assignments[1..], id, courseId);
    } else {
      NetDeltaUnique(assignments[1..], id, j - 1, courseId);
    }
  }

  /** Toggling an id that no assignment carries leaves every counter where it was. */
  lemma {:induction false} NetDeltaAbsent(assignments: seq<Assignment>, id: string, courseId: string)
    requires forall k :: 0 <= k < |assignments| ==> assignments[k].id != id
    ensures NetDelta(assignments, id, courseId) == 0
  {
    if assignments != [] {
      NetDeltaAbsent(assignments[1..], id, courseId);
    }
  }

  // ---------------------------------------------------------------------------
  // Adding and deleting assignments

  /** The stored assignment: its own creation time when the form gave one, otherwise `now`. */
  function WithCreatedAt(a: Assignment, createdAtProvided: bool, now: Timestamp): (r: Assignment)
    ensures r == a.(createdAt := r.createdAt)
    ensures r.createdAt == if createdAtProvided then a.createdAt else now
  {
    if createdAtProvided then a else a.(createdAt := now)
  }

  /** Adds 1 to `totalAssignments` of the courses with the given id. */
  function IncrementTotal(courses: seq<Course>, courseId: string): (r: seq<Course>)
    ensures |r| == |courses|
    ensures forall k :: 0 <= k < |r| && courses[k].id != courseId ==> r[k] == courses[k]
    ensures forall k :: 0 <= k < |r| && courses[k].id == courseId ==>
              r[k] == courses[k].(totalAssignments := courses[k].totalAssignments + 1)
  {
    MapSeq((c: Course) => if c.id == courseId then c.(totalAssignments := c.totalAssignments + 1) else c, courses)
  }

  /** `Math.max(0, n - 1)`. */
  function FlooredDecrement(n: int): (m: int)
    ensures m >= 0
    ensures n >= 1 ==> m == n - 1
    ensures n <= 1 ==> m == 0
  {
    if n - 1 > 0 then n - 1 else 0
  }

  /** Takes one off `totalAssignments` of the courses with the given id, never going below 0. */
  function DecrementTotalFloored(courses: seq<Course>, courseId: string): (r: seq<Course>)
    ensures |r| == |courses|
    ensures forall k :: 0 <= k < |r| && courses[k].id != courseId ==> r[k] == courses[k]
    ensures forall k :: 0 <= k < |r| && courses[k].id == courseId ==>
              r[k] == courses[k].(totalAssignments := FlooredDecrement(courses[k].totalAssignments))
  {
    MapSeq((c: Course) =>
      if c.id == courseId then c.(totalAssignments := FlooredDecrement(c.totalAssignments)) else c,
      courses)
  }

  /** `assignments.find(a => a.id === id)`, as the index of the first match. */
  function FindFirst(assignments: seq<Assignment>, id: string): (r: Option<nat>)
    ensures r.None? <==> forall k :: 0 <= k < |assignments| ==> assignments[k].id != id
    ensures r.Some? ==> r.value < |assignments| && assignments[r.value].id == id
    ensures r.Some? ==> forall k :: 0 <= k < r.value ==> assignments[k].id != id
  {
    if assignments == [] then None
    else if assignments[0].id == id then Some(0)
    else
      match FindFirst(assignments[1..], id)
      case None => None
      case Some(k) => Some(k + 1)
  }

  /** The assignment list without any assignment carrying the id; the others keep their order and multiplicity. */
  function WithoutAssignment(assignments: seq<Assignment>, id: string): (r: seq<Assignment>)
    ensures forall a :: a in r <==> a in assignments && a.id != id
    ensures forall a: Assignment :: multiset(r)[a] == if a.id != id then multiset(assignments)[a] else 0
    ensures SubsequenceOf(r, assignments)
  {
    FilterMultiset((a: Assignment) => a.id != id, assignments);
    Filter((a: Assignment) => a.id != id, assignments)
  }

  // ---------------------------------------------------------------------------
  // Courses

  function WithoutCourse(courses: seq<Course>, id: string): (r: seq<Course>)
    ensures forall c :: c in r <==> c in courses && c.id != id
    ensures forall c: Course :: multiset(r)[c] == if c.id != id then multiset(courses)[c] else 0
    ensures SubsequenceOf(r, courses)
  {
    FilterMultiset((c: Course) => c.id != id, courses);
    Filter((c: Course) => c.id != id, courses)
  }

  function WithoutCourseAssignments(assignments: seq<Assignment>, courseId: string): (r: seq<Assignment>)
    ensures forall a :: a in r <==> a in assignments && a.courseId != courseId
    ensures forall a: Assignment :: multiset(r)[a] == if a.courseId != courseId then multiset(assignments)[a] else 0
    ensures SubsequenceOf(r, assignments)
  {
    FilterMultiset((a: Assignment) => a.courseId != courseId, assignments);
    Filter((a: Assignment) => a.courseId != courseId, assignments)
  }

  /** Every course with the updated course's id is replaced by it. */
  function ReplaceCourse(courses: seq<Course>, updated: Course): (r: seq<Course>)
    ensures |r| == |courses|
    ensures forall k :: 0 <= k < |r| ==> r[k] == if courses[k].id == updated.id then updated else courses[k]
  {
    MapSeq((c: Course) => if c.id == updated.id then updated else c, courses)
  }

  function SetWeakConcepts(courses: seq<Course>, courseId: string, concepts: seq<string>): (r: seq<Course>)
    ensures |r| == |courses|
    ensures forall k :: 0 <= k < |r| && courses[k].id != courseId ==> r[k] == courses[k]
    ensures forall k :: 0 <= k < |r| && courses[k].id == courseId ==>
              r[k] == courses[k].(weakConcepts := Some(concepts))
  {
    MapSeq((c: Course) => if c.id == courseId then c.(weakConcepts := Some(concepts)) else c, courses)
  }

  // ---------------------------------------------------------------------------
  // Saving a study session

  /** The topic and difficulty a caller gets when it leaves them out. */
  const DefaultTopic: string := "General"
  const DefaultDifficulty: int := 3

  function SessionLogEntry(today: string, topic: string, notes: string): string {
    "\n\n[Study Session Log - " + today + " - " + topic + "]:\n" + notes
  }

  /**
    A course's knowledge text after a session: the old text (empty when there was
    none) with the session's log entry appended exactly when the user asked for it
    and the notes are not blank.
   */
  function KnowledgeAfterSession(knowledge: Option<string>, notes: string, addToKnowledge: bool,
                                 today: string, topic: string): (r: string)
    ensures var base := knowledge.GetOr("");
            && |base| <= |r| && r[..|base|] == base
            && (r == base <==> !(addToKnowledge && !Text.IsBlank(notes)))
            && (r != base ==> r[|base|..] == SessionLogEntry(today, topic, notes))
  {
    var base := knowledge.GetOr("");
    if addToKnowledge && Text.Trim(notes) != "" then
      assert (base + SessionLogEntry(today, topic, notes))[..|base|] == base;
      base + SessionLogEntry(today, topic, notes)
    else base
  }

  /** The number of tenths nearest to a non-negative `x`, a tie going up. */
  function NearestTenths(x: real): (n: int)
    requires x >= 0.0
    ensures -0.5 < n as real - x * 10.0 <= 0.5
  {
    (x * 10.0 + 0.5).Floor
  }

  /** A whole number of tenths is its own floor once scaled by ten. */
  lemma WholeTenths(n: int)
    ensures ((n as real / 10.0) * 10.0).Floor as real == (n as real / 10.0) * 10.0
  {
    assert (n as real / 10.0) * 10.0 == n as real;
  }

  /**
    `parseFloat(x.toFixed(1))` on exact decimals: the nearest tenth, ties away from
    zero. The result is a whole number of tenths within 0.05 of `x`; a tie (exactly
    0.05 away) goes to the tenth further from zero.
   */
  function RoundTenth(x: real): (r: real)
    ensures x >= 0.0 ==> -0.05 < r - x <= 0.05
    ensures x < 0.0 ==> -0.05 <= r - x < 0.05
    ensures (r * 10.0).Floor as real == r * 10.0
  {
    var n := if x >= 0.0 then NearestTenths(x) else -NearestTenths(-x);
    WholeTenths(n);
    n as real / 10.0
  }

  /** `toFixed` rounds the magnitude, so opposite inputs round to opposite tenths. */
  lemma RoundTenthSymmetric(x: real)
    ensures RoundTenth(-x) == -RoundTenth(x)
  {
    if x == 0.0 {
      assert -x == x;
    }
  }

  function HoursOf(durationSeconds: int): real {
    durationSeconds as real / 3600.0
  }

  /** The course list after a session: the matching courses gain its hours and possibly its notes. */
  function CreditSession(courses: seq<Course>, courseId: string, durationSeconds: int, notes: string,
                         addToKnowledge: bool, topic: string, today: string): (r: seq<Course>)
    ensures |r| == |courses|
    ensures forall k :: 0 <= k < |r| && courses[k].id != courseId ==> r[k] == courses[k]
    ensures forall k :: 0 <= k < |r| && courses[k].id == courseId ==>
              r[k] == courses[k].(
                hoursCompleted := RoundTenth(courses[k].hoursCompleted + HoursOf(durationSeconds)),
                knowledge := Some(KnowledgeAfterSession(courses[k].knowledge, notes, addToKnowledge, today, topic)))
  {
    MapSeq((c: Course) =>
      if c.id == courseId then
        c.(hoursCompleted := RoundTenth(c.hoursCompleted + HoursOf(durationSeconds)),
           knowledge := Some(KnowledgeAfterSession(c.knowledge, notes, addToKnowledge, today, topic)))
      else c,
      courses)
  }

  // ---------------------------------------------------------------------------
  // Dashboard

  predicate IsOpen(a: Assignment) {
    a.status != Completed
  }

  function DueKey(a: Assignment): real {
    a.dueDate as real
  }

  const UpcomingSize: nat := 3

  /** The dashboard's "Upcoming Deadlines": open assignments, earliest due first, at most three. */
  function UpcomingAssignments(assignments: seq<Assignment>): (r: seq<Assignment>)
    ensures |r| <= UpcomingSize
    ensures |r| == if |Filter(IsOpen, assignments)| < UpcomingSize then |Filter(IsOpen, assignments)| else UpcomingSize
    ensures forall a :: a in r ==> a in assignments && a.status != Completed
    ensures SortedBy(DueKey, r)
    ensures multiset(r) <= multiset(Filter(IsOpen, assignments))
  {
    var open := Filter(IsOpen, assignments);
    var sorted := SortBy(DueKey, open);
    var r := Take(sorted, UpcomingSize);
    TakeSorted(DueKey, sorted, UpcomingSize);
    assert forall a :: a in sorted ==> a in multiset(open);
    r
  }

  /** An open assignment left off the list means the list is full and its last entry is due no later. */
  lemma UpcomingKeepsEarliest(assignments: seq<Assignment>, a: Assignment)
    requires a in assignments && a.status != Completed
    requires a !in UpcomingAssignments(assignments)
    ensures |UpcomingAssignments(assignments)| == UpcomingSize
    ensures UpcomingAssignments(assignments)[UpcomingSize - 1].dueDate <= a.dueDate
  {
    var open := Filter(IsOpen, assignments);
    var sorted := SortBy(DueKey, open);
    assert a in multiset(open);
    TakeSortedKeepsSmallest(DueKey, sorted, UpcomingSize, a);
  }

  /** Copy by copy: an open assignment listed fewer times than it occurs means the list is full and ends no later. */
  lemma UpcomingKeepsEarliestCopies(assignments: seq<Assignment>, a: Assignment)
    requires multiset(UpcomingAssignments(assignments))[a] < multiset(Filter(IsOpen, assignments))[a]
    ensures |UpcomingAssignments(assignments)| == UpcomingSize
    ensures UpcomingAssignments(assignments)[UpcomingSize - 1].dueDate <= a.dueDate
  {
    var open := Filter(IsOpen, assignments);
    var sorted := SortBy(DueKey, open);
    TakeSortedKeepsSmallestCopies(DueKey, sorted, UpcomingSize, a);
  }

  // ---------------------------------------------------------------------------
  // The store

  class Store {
    var courses: seq<Course>
    var assignments: seq<Assignment>
    var sessions: seq<StudySession>
    var totalSemesterHours: real

    constructor(courses0: seq<Course>, assignments0: seq<Assignment>, sessions0: seq<StudySession>,
                totalSemesterHours0: real)
      ensures courses == courses0 && assignments == assignments0
      ensures sessions == sessions0 && totalSemesterHours == totalSemesterHours0
    {
      courses := courses0;
      assignments := assignments0;
      sessions := sessions0;
      totalSemesterHours := totalSemesterHours0;
    }

    method AddCourse(newCourse: Course)
      modifies this
      ensures courses == old(courses) + [newCourse]
      ensures assignments == old(assignments) && sessions == old(sessions)
      ensures totalSemesterHours == old(totalSemesterHours)
    {
      courses := courses + [newCourse];
    }

    method UpdateCourse(updated: Course)
      modifies this
      ensures courses == ReplaceCourse(old(courses), updated)
      ensures assignments == old(assignments) && sessions == old(sessions)
      ensures totalSemesterHours == old(totalSemesterHours)
    {
      courses := ReplaceCourse(courses, updated);
    }

    method UpdateCourseWeakness(courseId: string, concepts: seq<string>)
      modifies this
      ensures courses == SetWeakConcepts(old(courses), courseId, concepts)
      ensures assignments == old(assignments) && sessions == old(sessions)
      ensures totalSemesterHours == old(totalSemesterHours)
    {
      courses := SetWeakConcepts(courses, courseId, concepts);
    }

    /** Without confirmation nothing changes; with it the course and all of its assignments go. */
    method DeleteCourse(id: string, confirmed: bool)
      modifies this
      ensures confirmed ==> courses == WithoutCourse(old(courses), id)
      ensures confirmed ==> assignments == WithoutCourseAssignments(old(assignments), id)
      ensures !confirmed ==> courses == old(courses) && assignments == old(assignments)
      ensures sessions == old(sessions) && totalSemesterHours == old(totalSemesterHours)
    {
      if confirmed {
        courses := WithoutCourse(courses, id);
        assignments := WithoutCourseAssignments(assignments, id);
      }
    }

    /** Appends exactly one assignment and counts it in its course's total. */
    method AddAssignment(newAssignment: Assignment, createdAtProvided: bool, now: Timestamp)
      modifies this
      ensures assignments == old(assignments) + [WithCreatedAt(newAssignment, createdAtProvided, now)]
      ensures courses == IncrementTotal(old(courses), newAssignment.courseId)
      ensures sessions == old(sessions) && totalSemesterHours == old(totalSemesterHours)
    {
      assignments := assignments + [WithCreatedAt(newAssignment, createdAtProvided, now)];
      courses := IncrementTotal(courses, newAssignment.courseId);
    }

    /**
      An unknown id changes nothing. Otherwise every assignment with the id is removed
      and the course of the first one loses one from its total, floored at 0.
     */
    method DeleteAssignment(id: string)
      modifies this
      ensures FindFirst(old(assignments), id).None? ==>
                assignments == old(assignments) && courses == old(courses)
      ensures FindFirst(old(assignments), id).Some? ==>
                && assignments == WithoutAssignment(old(assignments), id)
                && courses == DecrementTotalFloored(old(courses),
                                old(assignments)[FindFirst(old(assignments), id).value].courseId)
      ensures sessions == old(sessions) && totalSemesterHours == old(totalSemesterHours)
    {
      var found := FindFirst(assignments, id);
      if found.Some? {
        var assignment := assignments[found.value];
        assignments := WithoutAssignment(assignments, id);
        courses := DecrementTotalFloored(courses, assignment.courseId);
      }
    }

    /** Toggles every assignment with the id and applies the counter update each of them queues. */
    method ToggleAssignmentStatus(id: string, now: Timestamp)
      modifies this
      ensures assignments == ToggleAll(old(assignments), id, now)
      ensures courses == CountersAfterToggle(old(courses), old(assignments), id)
      ensures sessions == old(sessions) && totalSemesterHours == old(totalSemesterHours)
    {
      courses := CountersAfterToggle(courses, assignments, id);
      assignments := ToggleAll(assignments, id, now);
    }

    /**
      Records a session at the front of the history and credits its hours (and, when
      asked for, its notes) to the course. `sessionId`, `date` and `today` are the
      clock's reading rendered as the id, as YYYY-MM-DD and in the user's locale.
     */
    method SaveSession(courseId: string, durationSeconds: int, notes: string, addToKnowledge: bool,
                       topic: string, difficulty: int,
                       sessionId: string, now: Timestamp, date: string, today: string)
      modifies this
      ensures sessions == [StudySession(sessionId, courseId, now, durationSeconds, notes, date, topic, difficulty)]
                          + old(sessions)
      ensures courses == CreditSession(old(courses), courseId, durationSeconds, notes, addToKnowledge, topic, today)
      ensures totalSemesterHours == RoundTenth(old(totalSemesterHours) + HoursOf(durationSeconds))
      ensures assignments == old(assignments)
    {
      var newSession := StudySession(sessionId, courseId, now, durationSeconds, notes, date, topic, difficulty);
      sessions := [newSession] + sessions;
      courses := CreditSession(courses, courseId, durationSeconds, notes, addToKnowledge, topic, today);
      totalSemesterHours := RoundTenth(totalSemesterHours + HoursOf(durationSeconds));
    }

    /**
      The study timer's save: it passes four arguments, so the session is logged under
      the default topic and difficulty.
     */
    method SaveTimerSession(request: StudyTimer.SaveRequest, sessionId: string, now: Timestamp, date: string, today: string)
      modifies this
      ensures sessions == [StudySession(sessionId, request.courseId, now, request.durationSeconds, request.notes,
                                        date, DefaultTopic, DefaultDifficulty)] + old(sessions)
      ensures courses == CreditSession(old(courses), request.courseId, request.durationSeconds, request.notes,
                                       request.addToKnowledge, DefaultTopic, today)
      ensures totalSemesterHours == RoundTenth(old(totalSemesterHours) + HoursOf(request.durationSeconds))
      ensures assignments == old(assignments)
    {
      SaveSession(request.courseId, request.durationSeconds, request.notes, request.addToKnowledge,
                  DefaultTopic, DefaultDifficulty, sessionId, now, date, today);
    }
  }

  /**
    With ids unique, a toggle changes exactly one assignment and moves exactly one
    course's completed count by one: up when it completes, down (no floor) when it reopens.
   */
  lemma ToggleUniqueEffect(courses: seq<Course>, assignments: seq<Assignment>, j: nat, now: Timestamp)
    requires j < |assignments|
    requires forall k :: 0 <= k < |assignments| && k != j ==> assignments[k].id != assignments[j].id
    ensures var id := assignments[j].id;
            var after := ToggleAll(assignments, id, now);
            && after == assignments[j := Toggled(assignments[j], now)]
    ensures var id := assignments[j].id;
            var counters := CountersAfterToggle(courses, assignments, id);
            && |counters| == |courses|
            && forall k :: 0 <= k < |courses| ==>
                 counters[k] == courses[k].(completedAssignments := courses[k].completedAssignments +
                   (if courses[k].id == assignments[j].courseId then CompletedDelta(assignments[j]) else 0))
  {
    var id := assignments[j].id;
    CountersAfterToggleAdds(courses, assignments, id);
    forall k | 0 <= k < |courses|
      ensures NetDelta(assignments, id, courses[k].id) ==
                (if courses[k].id == assignments[j].courseId then CompletedDelta(assignments[j]) else 0)
    {
      NetDeltaUnique(assignments, id, j, courses[k].id);
    }
  }
}

=== FILE: lists.dfy ===
/**
  The array operations the app chains together (`filter`, `map`, `sort` with a
  numeric comparator, `slice(0, n)`), as functions on sequences.
 */
module Lists {

  /**
    `r` is `s` with some elements dropped and the rest left in order: matching each
    element of `r` against the earliest equal element of `s` still unused succeeds.
   */
  predicate SubsequenceOf<T(==)>(r: seq<T>, s: seq<T>)
    decreases |s|
  {
    if r == [] then true
    else if s == [] then false
    else if r[0] == s[0] then SubsequenceOf(r[1..], s[1..])
    else SubsequenceOf(r, s[1..])
  }

  /** `s.filter(p)`: keeps the elements satisfying `p`, in their original order. */
  function Filter<T(==,!new)>(p: T -> bool, s: seq<T>): (r: seq<T>)
    ensures |r| <= |s|
    ensures forall i :: 0 <= i < |r| ==> p(r[i])
    ensures forall x :: x in r <==> x in s && p(x)
    ensures SubsequenceOf(r, s)
  {
    if s == [] then []
    else
      assert s == [s[0]] + s[1..];
      var rest := Filter(p, s[1..]);
      if p(s[0]) then [s[0]] + rest else rest
  }

  /** Filtering keeps every element that satisfies `p` exactly as often as it occurs. */
  lemma {:induction false} FilterMultiset<T(!new)>(p: T -> bool, s: seq<T>)
    ensures forall x :: multiset(Filter(p, s))[x] == if p(x) then multiset(s)[x] else 0
  {
    if s != [] {
      assert s == [s[0]] + s[1..];
      FilterMultiset(p, s[1..]);
    }
  }

  lemma {:induction false} FilterAppend<T(!new)>(p: T -> bool, a: seq<T>, b: seq<T>)
    ensures Filter(p, a + b) == Filter(p, a) + Filter(p, b)
  {
    if a == [] {
      assert a + b == b;
    } else {
      assert (a + b)[1..] == a[1..] + b;
      FilterAppend(p, a[1..], b);
    }
  }

  /** An element that fails `p` leaves no trace in the filtered sequence. */
  lemma FilterSkips<T(!new)>(p: T -> bool, a: seq<T>, x: T, b: seq<T>)
    requires !p(x)
    ensures Filter(p, a + [x] + b) == Filter(p, a + b)
  {
    assert Filter(p, [x]) == [] by {
      assert [x][1..] == [];
    }
    FilterAppend(p, a, [x]);
    assert Filter(p, a + [x]) == Filter(p, a);
    FilterAppend(p, a + [x], b);
    FilterAppend(p, a, b);
  }

  /** `s.map(f)`. */
  function MapSeq<T, U>(f: T -> U, s: seq<T>): (r: seq<U>)
    ensures |r| == |s|
    ensures forall i :: 0 <= i < |s| ==> r[i] == f(s[i])
  {
    seq(|s|, i requires 0 <= i < |s| => f(s[i]))
  }

  /** `s.slice(0, n)`: the first `n` elements, or all of them when there are fewer. */
  function Take<T(==)>(s: seq<T>, n: nat): (r: seq<T>)
    ensures |r| == if |s| <= n then |s| else n
    ensures r == s[..|r|]
    ensures forall x :: x in r ==> x in s
    ensures multiset(r) <= multiset(s)
  {
    if |s| <= n then s
    else
      assert s == s[..n] + s[n..];
      s[..n]
  }

  ghost predicate SortedBy<T>(key: T -> real, s: seq<T>) {
    forall i, j :: 0 <= i < j < |s| ==> key(s[i]) <= key(s[j])
  }

  /** A key no larger than all of a sorted sequence's keys can go in front of it. */
  lemma SortedCons<T>(key: T -> real, x: T, s: seq<T>)
    requires SortedBy(key, s)
    requires forall i :: 0 <= i < |s| ==> key(x) <= key(s[i])
    ensures SortedBy(key, [x] + s)
  {
    var r := [x] + s;
    forall i, j | 0 <= i < j < |r|
      ensures key(r[i]) <= key(r[j])
    {
      assert r[j] == s[j - 1];
      if i > 0 {
        assert r[i] == s[i - 1];
      }
    }
  }

  /** The head of a sorted sequence stays in front when a larger key is inserted behind it. */
  lemma HeadBeforeInserted<T>(key: T -> real, x: T, s: seq<T>, rest: seq<T>)
    requires SortedBy(key, s) && s != [] && key(s[0]) < key(x)
    requires SortedBy(key, rest) && multiset(rest) == multiset(s[1..]) + multiset{x}
    ensures SortedBy(key, [s[0]] + rest)
  {
    forall i | 0 <= i < |rest|
      ensures key(s[0]) <= key(rest[i])
    {
      var y := rest[i];
      assert y in multiset(rest);
      if y != x {
        assert y in multiset(s[1..]);
        var k :| 0 <= k < |s[1..]| && s[1..][k] == y;
        assert s[k + 1] == y;
      }
    }
    SortedCons(key, s[0], rest);
  }

  /** Puts `x` in front of the first element whose key is not smaller. */
  function Insert<T(==,!new)>(key: T -> real, x: T, s: seq<T>): (r: seq<T>)
    requires SortedBy(key, s)
    ensures |r| == |s| + 1
    ensures multiset(r) == multiset(s) + multiset{x}
    ensures SortedBy(key, r)
  {
    if s == [] || key(x) <= key(s[0]) then
      SortedCons(key, x, s);
      [x] + s
    else
      assert s == [s[0]] + s[1..];
      var rest := Insert(key, x, s[1..]);
      HeadBeforeInserted(key, x, s, rest);
      [s[0]] + rest
  }

  /**
    `s.sort((a, b) => key(a) - key(b))`: an insertion sort, ascending by `key`. Like
    JavaScript's sort it is stable (an element goes in front of the first one whose key
    is not smaller), but the contract states only sortedness and the permutation.
   */
  function SortBy<T(==,!new)>(key: T -> real, s: seq<T>): (r: seq<T>)
    ensures |r| == |s|
    ensures multiset(r) == multiset(s)
    ensures SortedBy(key, r)
  {
    if s == [] then []
    else
      assert s == [s[0]] + s[1..];
      Insert(key, s[0], SortBy(key, s[1..]))
  }

  /** A prefix of a sorted sequence is sorted. */
  lemma TakeSorted<T>(key: T -> real, s: seq<T>, n: nat)
    requires SortedBy(key, s)
    ensures SortedBy(key, Take(s, n))
  {
  }

  /**
    Taking the first `n` of a sorted sequence keeps the smallest keys: an element of
    `s` that did not make it is no smaller than the last one kept.
   */
  lemma TakeSortedKeepsSmallest<T(!new)>(key: T -> real, s: seq<T>, n: nat, x: T)
    requires SortedBy(key, s)
    requires x in s && x !in Take(s, n)
    ensures n > 0 ==> |Take(s, n)| == n && key(Take(s, n)[n - 1]) <= key(x)
  {
    var t := Take(s, n);
    var j :| 0 <= j < |s| && s[j] == x;
    assert forall k :: 0 <= k < |t| ==> t[k] == s[k];
    assert j >= |t|;
  }

  /**
    The same, copy by copy: when fewer copies of `x` are taken than `s` holds, the cut
    is full and its last key is no larger than `x`'s.
   */
  lemma TakeSortedKeepsSmallestCopies<T(!new)>(key: T -> real, s: seq<T>, n: nat, x: T)
    requires SortedBy(key, s)
    requires multiset(Take(s, n))[x] < multiset(s)[x]
    ensures n > 0 ==> |Take(s, n)| == n && key(Take(s, n)[n - 1]) <= key(x)
  {
    assert s == s[..n] + s[n..] by {
      assert |s| > n;
    }
    assert x in s[n..];
    var j :| n <= j < |s| && s[j] == x;
  }
}

=== FILE: procrastination.dfy ===
/**
  The procrastination widget: a score from how late started assignments were
  started, its LOW / MED / HIGH tier, the "danger zone" of at most three
  untouched assignments that are running out of time, and the rule that hides
  the widget when there is nothing to warn about. `now` is a parameter.
 */
module Procrastination {
  import opened Types
  import opened Lists
  import Text

  const MsPerDay: int := 1000 * 3600 * 24
  /** The score shown when no assignment has been started yet. */
  const NeutralScore: real := 5.0
  /** Tier thresholds: below MedFrom is LOW, from HighFrom on is HIGH. */
  const MedFrom: real := 3.0
  const HighFrom: real := 7.0
  /** Danger-zone thresholds: fewer days left than this, or more percent of the lifetime gone. */
  const DangerDays: int := 5
  const DangerPercent: real := 60.0
  const DangerZoneSize: nat := 3

  /** Facts about real division by a positive number that the proofs below lean on. */
  lemma DivisionBounds(x: real, y: real)
    requires y > 0.0
    ensures x <= 0.0 ==> x / y <= 0.0
    ensures x >= y ==> x / y >= 1.0
    ensures 0.0 <= x <= y ==> 0.0 <= x / y <= 1.0
  {
    assert x / y * y == x;
  }

  // ---------------------------------------------------------------------------
  // Delay-ratio score

  /** The tasks that count towards the score: past NOT_STARTED and carrying a start time. */
  predicate HasStarted(a: Assignment) {
    a.status != NotStarted && a.startedAt.Some?
  }

  function StartedTasks(tasks: seq<Assignment>): (r: seq<Assignment>)
    ensures forall a :: a in r <==> a in tasks && HasStarted(a)
    ensures forall i :: 0 <= i < |r| ==> HasStarted(r[i])
    ensures forall a :: multiset(r)[a] == if HasStarted(a) then multiset(tasks)[a] else 0
    ensures SubsequenceOf(r, tasks)
  {
    FilterMultiset(HasStarted, tasks);
    Filter(HasStarted, tasks)
  }

  /** `Math.max(due - created, 1)`: the lifetime, never below one millisecond. */
  function Lifetime(a: Assignment): (t: int)
    ensures t >= 1 && t >= a.dueDate - a.createdAt
    ensures t == a.dueDate - a.createdAt || t == 1
  {
    if a.dueDate - a.createdAt >= 1 then a.dueDate - a.createdAt else 1
  }

  /** `Math.min(Math.max(x, lo), hi)`. */
  function Clamp(x: real, lo: real, hi: real): real
    requires lo <= hi
  {
    if x < lo then lo else if x > hi then hi else x
  }

  /** The share of its lifetime an assignment waited before work began, clamped to [0, 1]. */
  function DelayRatio(a: Assignment): (r: real)
    requires a.startedAt.Some?
    ensures 0.0 <= r <= 1.0
  {
    var delay := a.startedAt.value - a.createdAt;
    Clamp(delay as real / Lifetime(a) as real, 0.0, 1.0)
  }

  /**
    Every ordering of the three timestamps is covered: a start at or before creation
    gives 0, a start at or after a later due date gives 1, a task whose due date is not
    after its creation gives 1 as soon as it started after creation, and in between the
    ratio is the exact share of the lifetime.
   */
  lemma DelayRatioCases(a: Assignment)
    requires a.startedAt.Some?
    ensures a.startedAt.value <= a.createdAt ==> DelayRatio(a) == 0.0
    ensures a.createdAt < a.startedAt.value && a.dueDate <= a.createdAt ==> DelayRatio(a) == 1.0
    ensures a.createdAt < a.dueDate <= a.startedAt.value ==> DelayRatio(a) == 1.0
    ensures a.createdAt < a.startedAt.value < a.dueDate ==>
              DelayRatio(a) == (a.startedAt.value - a.createdAt) as real / (a.dueDate - a.createdAt) as real
  {
  }

  /** Sum of the delay ratios, accumulated left to right as the `forEach` does. */
  function SumRatios(s: seq<Assignment>): real
    requires forall i :: 0 <= i < |s| ==> s[i].startedAt.Some?
  {
    if s == [] then 0.0 else SumRatios(s[..|s| - 1]) + DelayRatio(s[|s| - 1])
  }

  lemma {:induction false} SumRatiosBounds(s: seq<Assignment>)
    requires forall i :: 0 <= i < |s| ==> s[i].startedAt.Some?
    ensures 0.0 <= SumRatios(s) <= |s| as real
  {
    if s != [] {
      SumRatiosBounds(s[..|s| - 1]);
    }
  }

  /**
    The procrastination score: ten times the mean delay ratio of the started tasks,
    or the neutral 5 when there are none. It always lies in [0, 10].
   */
  function Score(tasks: seq<Assignment>): (score: real)
    ensures 0.0 <= score <= 10.0
    ensures StartedTasks(tasks) == [] ==> score == NeutralScore
    ensures StartedTasks(tasks) != [] ==>
              score == SumRatios(StartedTasks(tasks)) / |StartedTasks(tasks)| as real * 10.0
  {
    var started := StartedTasks(tasks);
    if |started| > 0 then
      SumRatiosBounds(started);
      DivisionBounds(SumRatios(started), |started| as real);
      SumRatios(started) / |started| as real * 10.0
    else
      NeutralScore
  }

  /** One more task adds its own ratio to the running total. */
  lemma SumRatiosStep(s: seq<Assignment>, i: nat)
    requires i < |s| && forall k :: 0 <= k < |s| ==> s[k].startedAt.Some?
    ensures SumRatios(s[..i + 1]) == SumRatios(s[..i]) + DelayRatio(s[i])
  {
    assert s[..i + 1][..i] == s[..i];
  }

  /** The widget's own computation: filter, then a loop that accumulates a total and a count. */
  method ComputeScore(tasks: seq<Assignment>) returns (score: real)
    ensures score == Score(tasks)
  {
    var completedOrStarted := StartedTasks(tasks);
    assert forall k :: 0 <= k < |completedOrStarted| ==> completedOrStarted[k].startedAt.Some?;
    var totalDelayRatio := 0.0;
    var count := 0;
    for i := 0 to |completedOrStarted|
      invariant totalDelayRatio == SumRatios(completedOrStarted[..i])
      invariant count == i
    {
      SumRatiosStep(completedOrStarted, i);
      totalDelayRatio := totalDelayRatio + DelayRatio(completedOrStarted[i]);
      count := count + 1;
    }
    assert completedOrStarted[..|completedOrStarted|] == completedOrStarted;
    if count > 0 {
      score := totalDelayRatio / count as real * 10.0;
    } else {
      score := NeutralScore;
    }
  }

  lemma {:induction false} StartedTasksSkipsUnstarted(before: seq<Assignment>, a: Assignment, after: seq<Assignment>)
    requires !HasStarted(a)
    ensures StartedTasks(before + [a] + after) == StartedTasks(before + after)
  {
    FilterSkips(HasStarted, before, a, after);
  }

  /** A task that has not been started can be added anywhere without moving the score. */
  lemma ScoreIgnoresUnstarted(before: seq<Assignment>, a: Assignment, after: seq<Assignment>)
    requires !HasStarted(a)
    ensures Score(before + [a] + after) == Score(before + after)
  {
    StartedTasksSkipsUnstarted(before, a, after);
  }

  datatype Tier = Low | Med | High

  /** Exactly one tier holds for every score: LOW below 3, MED from 3 below 7, HIGH from 7. */
  function TierOf(score: real): (t: Tier)
    ensures t == Low <==> score < MedFrom
    ensures t == Med <==> MedFrom <= score < HighFrom
    ensures t == High <==> HighFrom <= score
  {
    if score < MedFrom then Low else if score < HighFrom then Med else High
  }

  // ---------------------------------------------------------------------------
  // Danger zone

  /** `(due - now) / (1000 * 3600 * 24)`: negative once the due date has passed. */
  function DaysLeft(a: Assignment, now: Timestamp): real {
    (a.dueDate - now) as real / MsPerDay as real
  }

  /** A JavaScript number as far as the elapsed-percent computation can produce it. */
  datatype Percent = Finite(value: real) | PosInfinity | NegInfinity | NaN

  /**
    `((now - created) / (due - created)) * 100` with IEEE division: the span is not
    guarded, so a zero span gives +Infinity, -Infinity or NaN (0 / 0).
   */
  function ElapsedPercent(a: Assignment, now: Timestamp): (p: Percent)
    ensures p.Finite? <==> a.dueDate != a.createdAt
    ensures p.Finite? ==> p.value * (a.dueDate - a.createdAt) as real == (now - a.createdAt) as real * 100.0
    ensures p.PosInfinity? <==> a.dueDate == a.createdAt && now > a.createdAt
    ensures p.NaN? <==> a.dueDate == a.createdAt && now == a.createdAt
  {
    var span := a.dueDate - a.createdAt;
    var elapsed := now - a.createdAt;
    if span != 0 then Finite(elapsed as real / span as real * 100.0)
    else if elapsed > 0 then PosInfinity
    else if elapsed < 0 then NegInfinity
    else NaN
  }

  /** JavaScript's `p > bound` for a finite bound: true of +Infinity, false of -Infinity and NaN. */
  predicate Exceeds(p: Percent, bound: real)
    ensures p.Finite? ==> (Exceeds(p, bound) <==> p.value > bound)
    ensures p.PosInfinity? ==> Exceeds(p, bound)
    ensures p.NegInfinity? || p.NaN? ==> !Exceeds(p, bound)
  {
    match p
    case Finite(v) => v > bound
    case PosInfinity => true
    case NegInfinity => false
    case NaN => false
  }

  /** An assignment with the two signals the pipeline attaches to it. */
  datatype DangerEntry = DangerEntry(task: Assignment, daysLeft: real, timeElapsedPercent: Percent)

  function Annotate(a: Assignment, now: Timestamp): DangerEntry {
    DangerEntry(a, DaysLeft(a, now), ElapsedPercent(a, now))
  }

  predicate IsNotStarted(a: Assignment) {
    a.status == NotStarted
  }

  /** Either signal alone is enough. */
  predicate IsUrgent(e: DangerEntry) {
    e.daysLeft < DangerDays as real || Exceeds(e.timeElapsedPercent, DangerPercent)
  }

  function DaysLeftKey(e: DangerEntry): real {
    e.daysLeft
  }

  /** The filter / map / filter stages that come before the sort. */
  function Candidates(tasks: seq<Assignment>, now: Timestamp): (r: seq<DangerEntry>)
    ensures |r| <= |tasks|
    ensures forall i :: 0 <= i < |r| ==> IsNotStarted(r[i].task) && IsUrgent(r[i])
  {
    var notStarted := Filter(IsNotStarted, tasks);
    var annotated := MapSeq((a: Assignment) => Annotate(a, now), notStarted);
    Filter(IsUrgent, annotated)
  }

  /** The candidates are exactly the untouched tasks that are urgent, each with its own signals. */
  lemma CandidatesExactly(tasks: seq<Assignment>, now: Timestamp)
    ensures forall e :: e in Candidates(tasks, now) <==>
              e.task in tasks && IsNotStarted(e.task) && e == Annotate(e.task, now) && IsUrgent(e)
  {
    var notStarted := Filter(IsNotStarted, tasks);
    var annotated := MapSeq((a: Assignment) => Annotate(a, now), notStarted);
    forall e | e in annotated
      ensures e.task in notStarted && e == Annotate(e.task, now)
    {
      var i :| 0 <= i < |annotated| && annotated[i] == e;
    }
    forall a | a in notStarted
      ensures Annotate(a, now) in annotated
    {
      var i :| 0 <= i < |notStarted| && notStarted[i] == a;
      assert annotated[i] == Annotate(a, now);
    }
  }

  /**
    The most urgent candidates: sorted ascending by days left, at most three.
    Every entry is an untouched task of the input that is urgent, shown with its own signals.
   */
  function DangerZone(tasks: seq<Assignment>, now: Timestamp): (r: seq<DangerEntry>)
    ensures |r| <= DangerZoneSize
    ensures |r| == if |Candidates(tasks, now)| < DangerZoneSize then |Candidates(tasks, now)| else DangerZoneSize
    ensures SortedBy(DaysLeftKey, r)
    ensures multiset(r) <= multiset(Candidates(tasks, now))
    ensures forall e :: e in r ==>
              e.task in tasks && IsNotStarted(e.task) && e == Annotate(e.task, now) && IsUrgent(e)
  {
    var candidates := Candidates(tasks, now);
    var sorted := SortBy(DaysLeftKey, candidates);
    var r := Take(sorted, DangerZoneSize);
    CandidatesExactly(tasks, now);
    TakeSorted(DaysLeftKey, sorted, DangerZoneSize);
    assert forall e :: e in sorted ==> e in multiset(candidates);
    r
  }

  /**
    No urgent task is crowded out by a less urgent one: a qualifying task missing from
    the danger zone means the zone is full and its last entry is due no later.
   */
  lemma DangerZoneKeepsMostUrgent(tasks: seq<Assignment>, now: Timestamp, a: Assignment)
    requires a in tasks && IsNotStarted(a) && IsUrgent(Annotate(a, now))
    requires Annotate(a, now) !in DangerZone(tasks, now)
    ensures |DangerZone(tasks, now)| == DangerZoneSize
    ensures DangerZone(tasks, now)[DangerZoneSize - 1].daysLeft <= DaysLeft(a, now)
  {
    CandidatesExactly(tasks, now);
    var candidates := Candidates(tasks, now);
    var sorted := SortBy(DaysLeftKey, candidates);
    assert Annotate(a, now) in multiset(candidates);
    TakeSortedKeepsSmallest(DaysLeftKey, sorted, DangerZoneSize, Annotate(a, now));
  }

  /**
    Copy by copy: a candidate entry that occurs fewer times in the danger zone than among
    the candidates means the zone is full and its last entry is due no later.
   */
  lemma DangerZoneKeepsMostUrgentCopies(tasks: seq<Assignment>, now: Timestamp, e: DangerEntry)
    requires multiset(DangerZone(tasks, now))[e] < multiset(Candidates(tasks, now))[e]
    ensures |DangerZone(tasks, now)| == DangerZoneSize
    ensures DangerZone(tasks, now)[DangerZoneSize - 1].daysLeft <= e.daysLeft
  {
    var candidates := Candidates(tasks, now);
    var sorted := SortBy(DaysLeftKey, candidates);
    TakeSortedKeepsSmallestCopies(DaysLeftKey, sorted, DangerZoneSize, e);
  }

  /** The elapsed-percent test with the division multiplied out, one case per sign of the span. */
  predicate ElapsedTestExact(a: Assignment, now: Timestamp) {
    var span := a.dueDate - a.createdAt;
    var elapsed := now - a.createdAt;
    if span > 0 then elapsed * 100 > 60 * span
    else if span < 0 then elapsed * 100 < 60 * span
    else elapsed > 0
  }

  lemma QuotientExceeds(x: real, y: real)
    requires y != 0.0
    ensures x / y * 100.0 > 60.0 <==> (if y > 0.0 then x * 100.0 > 60.0 * y else x * 100.0 < 60.0 * y)
  {
  }

  /**
    Urgency in integer terms: due in under five days' worth of milliseconds, or
    more than 60 percent of the lifetime gone, where a zero lifetime counts as
    exceeded exactly when `now` is past creation (+Infinity > 60).
   */
  lemma UrgentIffExact(a: Assignment, now: Timestamp)
    ensures IsUrgent(Annotate(a, now)) <==>
              a.dueDate - now < DangerDays * MsPerDay || ElapsedTestExact(a, now)
  {
    var left := (a.dueDate - now) as real;
    assert left / MsPerDay as real * MsPerDay as real == left;
    var span := a.dueDate - a.createdAt;
    var elapsed := now - a.createdAt;
    if span != 0 {
      QuotientExceeds(elapsed as real, span as real);
    }
  }

  /** Membership in the danger zone's candidate set, stated over the raw timestamps. */
  lemma CandidateIff(tasks: seq<Assignment>, now: Timestamp, a: Assignment)
    ensures Annotate(a, now) in Candidates(tasks, now) <==>
              a in tasks && a.status == NotStarted &&
              (a.dueDate - now < DangerDays * MsPerDay || ElapsedTestExact(a, now))
  {
    CandidatesExactly(tasks, now);
    UrgentIffExact(a, now);
  }

  /** The label next to a danger-zone entry. */
  const DaysLeftSuffix: string := " DAYS LEFT"

  /** `Math.ceil` on a real. */
  function Ceil(x: real): (n: int)
    ensures n as real - 1.0 < x <= n as real
  {
    if x.Floor as real == x then x.Floor else x.Floor + 1
  }

  /**
    "DUE TODAY" once nothing is left, otherwise the whole number of days rounded up
    followed by " DAYS LEFT".
   */
  function DaysLeftLabel(daysLeft: real): (caption: string)
    ensures daysLeft <= 0.0 ==> caption == "DUE TODAY"
    ensures daysLeft > 0.0 ==>
              && |caption| > |DaysLeftSuffix|
              && caption[|caption| - |DaysLeftSuffix|..] == DaysLeftSuffix
              && Text.AllDigits(caption[..|caption| - |DaysLeftSuffix|])
              && (|caption| - |DaysLeftSuffix| == 1 || caption[0] != '0')
              && caption[..|caption| - |DaysLeftSuffix|] == Text.NatToString(Ceil(daysLeft))
              && var n := Text.ParseNat(caption[..|caption| - |DaysLeftSuffix|]) as real;
                 n - 1.0 < daysLeft <= n
  {
    if daysLeft <= 0.0 then "DUE TODAY"
    else
      var n := Ceil(daysLeft);
      var digits := Text.NatToString(n);
      Text.ParseNatToString(n);
      assert (digits + DaysLeftSuffix)[..|digits|] == digits;
      digits + DaysLeftSuffix
  }

  /** The widget renders nothing exactly when the danger zone is empty and the tier is LOW. */
  function ShowAlert(tasks: seq<Assignment>, now: Timestamp): (show: bool)
    ensures !show <==> DangerZone(tasks, now) == [] && Score(tasks) < MedFrom
  {
    !(|DangerZone(tasks, now)| == 0 && TierOf(Score(tasks)) == Low)
  }
}

=== FILE: study_timer.dfy ===
/**
  The study timer: an HH:MM:SS display of the elapsed seconds, and the small state
  machine behind the play, pause, save and discard buttons. The one-second interval
  is a `Tick` method; the confirmation dialog of a discard is a boolean parameter,
  and the "too short" alert of a save is the `None` it returns.
 */
module StudyTimer {
  import opened Types
  import Text

  /** Sessions shorter than this are not saved. */
  const MinimumSessionSeconds: nat := 60

  /** Hours (uncapped), minutes and seconds of a duration in seconds. */
  function ClockFields(totalSeconds: nat): (r: (nat, nat, nat))
    ensures r.0 == totalSeconds / 3600
    ensures r.1 < 60 && r.2 < 60
    ensures r.0 * 3600 + r.1 * 60 + r.2 == totalSeconds
  {
    (totalSeconds / 3600, (totalSeconds % 3600) / 60, totalSeconds % 60)
  }

  /** One clock field: `n.toString().padStart(2, '0')`, at least two digits, reading back as `n`. */
  function Field(n: nat): (r: string)
    ensures |r| >= 2 && Text.AllDigits(r) && Text.ParseNat(r) == n
    ensures |r| == 2 <==> n < 100
    ensures n >= 10 ==> r[0] != '0'
  {
    Text.ParsePadded(n, 2);
    Text.PadStart(Text.NatToString(n), 2, '0')
  }

  /** `formatTime`: HH:MM:SS, each field zero-padded to two digits, hours never capped. */
  function FormatTime(totalSeconds: nat): (r: string)
    ensures |r| >= 8 && r[|r| - 3] == ':' && r[|r| - 6] == ':'
    ensures |r| == 8 <==> totalSeconds < 100 * 3600
    ensures |r| > 8 ==> r[0] != '0'
  {
    var f := ClockFields(totalSeconds);
    Field(f.0) + ":" + Field(f.1) + ":" + Field(f.2)
  }

  function TotalSeconds(hours: nat, minutes: nat, secs: nat): nat {
    hours * 3600 + minutes * 60 + secs
  }

  /** The value of hour, minute and second fields, if they are digits and minutes and seconds are below 60. */
  function ReadFields(h: string, m: string, sec: string): Option<nat> {
    if Text.AllDigits(h) && Text.AllDigits(m) && Text.AllDigits(sec)
       && Text.ParseNat(m) < 60 && Text.ParseNat(sec) < 60
    then Some(TotalSeconds(Text.ParseNat(h), Text.ParseNat(m), Text.ParseNat(sec)))
    else None
  }

  /** Reads an HH:MM:SS display back into seconds; `None` for anything else. */
  function ParseTime(s: string): Option<nat> {
    if |s| < 8 || s[|s| - 3] != ':' || s[|s| - 6] != ':' then None
    else ReadFields(s[..|s| - 6], s[|s| - 5..|s| - 3], s[|s| - 2..])
  }

  /** An HH:MM:SS display built from three fields reads back field by field. */
  lemma ParseTimeFields(h: string, m: string, sec: string)
    requires |h| >= 2 && |m| == 2 && |sec| == 2
    ensures ParseTime(h + ":" + m + ":" + sec) == ReadFields(h, m, sec)
  {
    var r := h + ":" + m + ":" + sec;
    var n := |h|;
    assert r[n] == ':' by { assert r[n] == (h + ":")[n]; }
    assert r[n + 3] == ':';
    assert r[..n] == h;
    assert r[n + 1..n + 3] == m;
    assert r[n + 4..] == sec;
  }

  /** Three formatted fields, minutes and seconds below 60, read back as their total. */
  lemma ReadFormattedFields(hours: nat, minutes: nat, secs: nat)
    requires minutes < 60 && secs < 60
    ensures ParseTime(Field(hours) + ":" + Field(minutes) + ":" + Field(secs)) ==
              Some(TotalSeconds(hours, minutes, secs))
  {
    ParseTimeFields(Field(hours), Field(minutes), Field(secs));
  }

  /** The display loses nothing: reading it back gives the number of seconds shown. */
  lemma FormatTimeRoundTrip(totalSeconds: nat)
    ensures ParseTime(FormatTime(totalSeconds)) == Some(totalSeconds)
  {
    var f := ClockFields(totalSeconds);
    ReadFormattedFields(f.0, f.1, f.2);
    assert TotalSeconds(f.0, f.1, f.2) == totalSeconds;
    assert FormatTime(totalSeconds) == Field(f.0) + ":" + Field(f.1) + ":" + Field(f.2);
  }

  const FocusOpen: string := "[FOCUS: "
  const FocusClose: string := "] - "

  /** The notes handed to the session log: `[FOCUS: TOPIC] - ` in front when the topic is not blank. */
  function FinalNotes(topic: string, notes: string): (r: string)
    ensures Text.IsBlank(topic) ==> r == notes
    ensures !Text.IsBlank(topic) ==> |r| > |notes|
  {
    if Text.Trim(topic) != "" then FocusOpen + Text.UpperCase(topic) + FocusClose + notes else notes
  }

  /**
    The raw notes always end the final notes; they are all of it exactly when the topic
    is blank, and otherwise the upper-cased topic is tagged in front of them.
   */
  lemma FinalNotesShape(topic: string, notes: string)
    ensures var r := FinalNotes(topic, notes);
            && |r| >= |notes| && r[|r| - |notes|..] == notes
            && (r == notes <==> Text.IsBlank(topic))
            && (!Text.IsBlank(topic) ==> r == FocusOpen + Text.UpperCase(topic) + FocusClose + notes)
  {
  }

  /** The arguments of the `onSaveSession` call a successful save makes. */
  datatype SaveRequest = SaveRequest(courseId: string, durationSeconds: nat, notes: string, addToKnowledge: bool)

  /** What a save hands on: the course, the duration, the tagged notes and the knowledge flag. */
  function Submission(courseId: string, seconds: nat, topic: string, notes: string, addToKnowledge: bool): (r: SaveRequest)
    ensures r.courseId == courseId && r.durationSeconds == seconds && r.addToKnowledge == addToKnowledge
    ensures r.notes == FinalNotes(topic, notes)
  {
    SaveRequest(courseId, seconds, FinalNotes(topic, notes), addToKnowledge)
  }

  /** `initialCourseId || courses[0]?.id || ''`. */
  function InitialCourse(courseIds: seq<string>, initialCourseId: Option<string>): (r: string)
    ensures initialCourseId.Some? && initialCourseId.value != "" ==> r == initialCourseId.value
    ensures !(initialCourseId.Some? && initialCourseId.value != "") ==>
              r == if |courseIds| > 0 then courseIds[0] else ""
  {
    if initialCourseId.Some? && initialCourseId.value != "" then initialCourseId.value
    else if |courseIds| > 0 then courseIds[0]
    else ""
  }

  class Timer {
    var isActive: bool
    var seconds: nat
    var selectedCourseId: string
    var topic: string
    var notes: string
    var addToKnowledge: bool

    constructor(courseIds: seq<string>, initialTopic: string, initialCourseId: Option<string>)
      ensures !isActive && seconds == 0
      ensures selectedCourseId == InitialCourse(courseIds, initialCourseId)
      ensures topic == initialTopic && notes == "" && !addToKnowledge
    {
      isActive := false;
      seconds := 0;
      selectedCourseId := InitialCourse(courseIds, initialCourseId);
      topic := initialTopic;
      notes := "";
      addToKnowledge := false;
    }

    /** New non-empty props (a "break pattern" request) preselect the course and the topic. */
    method ReceiveProps(initialCourseId: Option<string>, initialTopic: string)
      modifies this
      ensures selectedCourseId ==
                if initialCourseId.Some? && initialCourseId.value != "" then initialCourseId.value
                else old(selectedCourseId)
      ensures topic == if initialTopic != "" then initialTopic else old(topic)
      ensures isActive == old(isActive) && seconds == old(seconds)
      ensures notes == old(notes) && addToKnowledge == old(addToKnowledge)
    {
      if initialCourseId.Some? && initialCourseId.value != "" {
        selectedCourseId := initialCourseId.value;
      }
      if initialTopic != "" {
        topic := initialTopic;
      }
    }

    /** The play button, shown only while the timer is idle at zero. */
    method Start()
      requires !isActive && seconds == 0
      modifies this
      ensures isActive
      ensures seconds == old(seconds) && selectedCourseId == old(selectedCourseId)
      ensures topic == old(topic) && notes == old(notes) && addToKnowledge == old(addToKnowledge)
    {
      isActive := true;
    }

    /** One firing of the interval, which exists only while the timer runs. */
    method Tick()
      requires isActive
      modifies this
      ensures seconds == old(seconds) + 1
      ensures isActive && selectedCourseId == old(selectedCourseId)
      ensures topic == old(topic) && notes == old(notes) && addToKnowledge == old(addToKnowledge)
    {
      seconds := seconds + 1;
    }

    /** The pause button, shown only while the timer runs: stops counting and keeps the time. */
    method Stop()
      requires isActive
      modifies this
      ensures !isActive
      ensures seconds == old(seconds) && selectedCourseId == old(selectedCourseId)
      ensures topic == old(topic) && notes == old(notes) && addToKnowledge == old(addToKnowledge)
    {
      isActive := false;
    }

    /** The course buttons are live only while the timer is idle at zero. */
    method SelectCourse(courseId: string)
      modifies this
      ensures selectedCourseId == if old(!isActive && seconds == 0) then courseId else old(selectedCourseId)
      ensures isActive == old(isActive) && seconds == old(seconds)
      ensures topic == old(topic) && notes == old(notes) && addToKnowledge == old(addToKnowledge)
    {
      if !isActive && seconds == 0 {
        selectedCourseId := courseId;
      }
    }

    // The debrief form (topic, notes, knowledge checkbox, save and discard) is shown
    // only once the timer is paused with some time on it.

    method SetTopic(value: string)
      requires !isActive && seconds > 0
      modifies this
      ensures topic == value
      ensures isActive == old(isActive) && seconds == old(seconds) && selectedCourseId == old(selectedCourseId)
      ensures notes == old(notes) && addToKnowledge == old(addToKnowledge)
    {
      topic := value;
    }

    method SetNotes(value: string)
      requires !isActive && seconds > 0
      modifies this
      ensures notes == value
      ensures isActive == old(isActive) && seconds == old(seconds) && selectedCourseId == old(selectedCourseId)
      ensures topic == old(topic) && addToKnowledge == old(addToKnowledge)
    {
      notes := value;
    }

    method ToggleAddToKnowledge()
      requires !isActive && seconds > 0
      modifies this
      ensures addToKnowledge == !old(addToKnowledge)
      ensures isActive == old(isActive) && seconds == old(seconds) && selectedCourseId == old(selectedCourseId)
      ensures topic == old(topic) && notes == old(notes)
    {
      addToKnowledge := !addToKnowledge;
    }

    /**
      Under a minute nothing is saved and nothing changes. Otherwise the session is
      handed on with its final notes and the timer returns to idle at zero with an
      empty report; the selected course stays.
     */
    method Save() returns (request: Option<SaveRequest>)
      requires !isActive && seconds > 0
      modifies this
      ensures old(seconds) < MinimumSessionSeconds ==>
                && request.None?
                && isActive == old(isActive) && seconds == old(seconds)
                && selectedCourseId == old(selectedCourseId) && topic == old(topic)
                && notes == old(notes) && addToKnowledge == old(addToKnowledge)
      ensures old(seconds) >= MinimumSessionSeconds ==>
                && request == Some(Submission(old(selectedCourseId), old(seconds), old(topic), old(notes),
                                              old(addToKnowledge)))
                && !isActive && seconds == 0 && topic == "" && notes == "" && !addToKnowledge
                && selectedCourseId == old(selectedCourseId)
    {
      if seconds < MinimumSessionSeconds {
        return None;
      }
      request := Some(Submission(selectedCourseId, seconds, topic, notes, addToKnowledge));
      seconds := 0;
      notes := "";
      topic := "";
      addToKnowledge := false;
      isActive := false;
    }

    /** A confirmed discard clears the time and the report but not the knowledge checkbox. */
    method Discard(confirmed: bool)
      requires !isActive && seconds > 0
      modifies this
      ensures confirmed ==> !isActive && seconds == 0 && topic == "" && notes == ""
      ensures !confirmed ==>
                isActive == old(isActive) && seconds == old(seconds) && topic == old(topic) && notes == old(notes)
      ensures addToKnowledge == old(addToKnowledge) && selectedCourseId == old(selectedCourseId)
    {
      if confirmed {
        seconds := 0;
        notes := "";
        topic := "";
        isActive := false;
      }
    }
  }
}

=== FILE: text.dfy ===
/**
  String helpers that mirror the JavaScript string operations the app relies on:
  `trim()` (for the "non-blank" tests), `Number.prototype.toString()` on
  non-negative integers, `padStart`, and `toUpperCase` restricted to ASCII.
 */
module Text {

  /** ASCII white space as `String.prototype.trim` strips it: space and \t, \n, \v, \f, \r. */
  predicate IsSpace(c: char) {
    c == ' ' || ('\t' <= c <= '\r')
  }

  predicate IsBlank(s: string) {
    forall i :: 0 <= i < |s| ==> IsSpace(s[i])
  }

  function TrimStart(s: string): (r: string)
    ensures |r| <= |s| && r == s[|s| - |r|..]
    ensures r != [] ==> !IsSpace(r[0])
    ensures forall i :: 0 <= i < |s| - |r| ==> IsSpace(s[i])
    ensures r == [] <==> IsBlank(s)
  {
    if s != [] && IsSpace(s[0]) then TrimStart(s[1..]) else s
  }

  function TrimEnd(s: string): (r: string)
    ensures |r| <= |s| && r == s[..|r|]
    ensures r != [] ==> !IsSpace(r[|r| - 1])
    ensures forall i :: |r| <= i < |s| ==> IsSpace(s[i])
    ensures r == [] <==> IsBlank(s)
  {
    if s != [] && IsSpace(s[|s| - 1]) then TrimEnd(s[..|s| - 1]) else s
  }

  /**
    `s.trim()`: white space removed from both ends; the result is empty (falsy)
    exactly when every character of `s` is white space.
   */
  function Trim(s: string): (r: string)
    ensures r == "" <==> IsBlank(s)
    ensures r != "" ==> !IsSpace(r[0]) && !IsSpace(r[|r| - 1])
    ensures exists i :: CutFrom(s, r, i)
  {
    var t := TrimStart(s);
    assert t != [] ==> !IsBlank(t);
    var r := TrimEnd(t);
    TrimCut(s, t, r);
    r
  }

  /** `r` is `s` with the white space `s[..i]` cut from its front and only white space cut from its back. */
  predicate CutFrom(s: string, r: string, i: int) {
    0 <= i <= |s| - |r| && r == s[i..i + |r|] && IsBlank(s[..i]) && IsBlank(s[i + |r|..])
  }

  lemma TrimCut(s: string, t: string, r: string)
    requires |t| <= |s| && t == s[|s| - |t|..] && forall k :: 0 <= k < |s| - |t| ==> IsSpace(s[k])
    requires |r| <= |t| && r == t[..|r|] && forall k :: |r| <= k < |t| ==> IsSpace(t[k])
    ensures CutFrom(s, r, |s| - |t|)
  {
    var i := |s| - |t|;
    assert s[i + |r|..] == t[|r|..];
  }

  predicate IsDigit(c: char) {
    '0' <= c <= '9'
  }

  predicate AllDigits(s: string) {
    forall i :: 0 <= i < |s| ==> IsDigit(s[i])
  }

  function DigitChar(d: nat): (c: char)
    requires d < 10
    ensures IsDigit(c) && c as int - '0' as int == d
  {
    ('0' as int + d) as char
  }

  /** Decimal value of a string of digits; leading zeros are allowed, "" is 0. */
  function ParseNat(s: string): nat
    requires AllDigits(s)
  {
    if s == [] then 0 else ParseNat(s[..|s| - 1]) * 10 + (s[|s| - 1] as int - '0' as int)
  }

  /** `n.toString()` for a non-negative integer: shortest decimal numeral. */
  function NatToString(n: nat): (r: string)
    ensures AllDigits(r) && |r| >= 1
    ensures n < 10 ==> |r| == 1
    ensures 10 <= n < 100 ==> |r| == 2
    ensures n >= 10 ==> r[0] != '0'
    ensures n >= 100 ==> |r| >= 3
  {
    if n < 10 then [DigitChar(n)] else NatToString(n / 10) + [DigitChar(n % 10)]
  }

  /** Reading back the numeral `n.toString()` gives `n`. */
  lemma {:induction false} ParseNatToString(n: nat)
    ensures ParseNat(NatToString(n)) == n
  {
    var r := NatToString(n);
    if n < 10 {
      assert r[..0] == [];
    } else {
      assert r[..|r| - 1] == NatToString(n / 10);
      ParseNatToString(n / 10);
    }
  }

  /** `s.padStart(width, fill)`. */
  function PadStart(s: string, width: nat, fill: char): (r: string)
    ensures |r| == if |s| >= width then |s| else width
    ensures r[|r| - |s|..] == s
    ensures forall i :: 0 <= i < |r| - |s| ==> r[i] == fill
  {
    if |s| >= width then s else seq(width - |s|, _ => fill) + s
  }

  /** Leading zeros do not change the value of a numeral. */
  lemma {:induction false} ParseNatLeadingZeros(z: string, s: string)
    requires forall i :: 0 <= i < |z| ==> z[i] == '0'
    requires AllDigits(s)
    ensures AllDigits(z + s) && ParseNat(z + s) == ParseNat(s)
  {
    var zs := z + s;
    if s == [] {
      assert zs == z;
      if z != [] {
        assert zs[..|zs| - 1] == z[..|z| - 1] + s;
        ParseNatLeadingZeros(z[..|z| - 1], s);
      }
    } else {
      assert zs[..|zs| - 1] == z + s[..|s| - 1];
      ParseNatLeadingZeros(z, s[..|s| - 1]);
    }
  }

  /** Reading back `n.toString().padStart(width, '0')` gives `n`. */
  lemma ParsePadded(n: nat, width: nat)
    ensures AllDigits(PadStart(NatToString(n), width, '0'))
    ensures ParseNat(PadStart(NatToString(n), width, '0')) == n
  {
    var s := NatToString(n);
    var r := PadStart(s, width, '0');
    var z := r[..|r| - |s|];
    assert r == z + s;
    ParseNatLeadingZeros(z, s);
    ParseNatToString(n);
  }

  /** `toUpperCase` on one character, ASCII letters only. */
  function UpperChar(c: char): char {
    if 'a' <= c <= 'z' then (c as int - 32) as char else c
  }

  /** Each lower-case ASCII letter becomes its upper-case letter (32 code points down); all else is kept. */
  function UpperCase(s: string): (r: string)
    ensures |r| == |s|
    ensures forall i :: 0 <= i < |s| && 'a' <= s[i] <= 'z' ==> 'A' <= r[i] <= 'Z' && r[i] as int == s[i] as int - 32
    ensures forall i :: 0 <= i < |r| ==> !('a' <= r[i] <= 'z')
    ensures forall i :: 0 <= i < |r| && !('a' <= s[i] <= 'z') ==> r[i] == s[i]
  {
    seq(|s|, i requires 0 <= i < |s| => UpperChar(s[i]))
  }
}

=== FILE: types.dfy ===
/**
  The records the dashboard works on. Dates, which the app stores as ISO strings,
  are integer milliseconds since the epoch here; colours and other display-only
  fields of a course are not part of the model.
 */
module Types {

  /** Milliseconds since the epoch, as `new Date(iso).getTime()` gives them. */
  type Timestamp = int

  datatype Option<T> = None | Some(value: T) {
    function GetOr(default: T): T {
      match this
      case Some(v) => v
      case None => default
    }
  }

  datatype AssignmentStatus = NotStarted | InProgress | Completed

  datatype Assignment = Assignment(
    id: string,
    courseId: string,
    name: string,
    dueDate: Timestamp,
    estimatedHours: real,
    status: AssignmentStatus,
    notes: Option<string>,
    createdAt: Timestamp,          // when the assignment was added
    startedAt: Option<Timestamp>)  // when work first began, if it has

  datatype Course = Course(
    id: string,
    name: string,
    totalHoursTarget: real,
    hoursCompleted: real,
    totalAssignments: int,
    completedAssignments: int,
    knowledge: Option<string>,        // syllabus and notes handed to the tutor
    weakConcepts: Option<seq<string>>)

  datatype StudySession = StudySession(
    id: string,
    courseId: string,
    startTime: Timestamp,
    durationSeconds: int,
    notes: string,
    date: string,   // the YYYY-MM-DD part of the start time
    topic: string,
    difficulty: int)
}
